=== FILE: README.md ===
# rid: Dart type rendering and the todo example, in Dafny

This project models two pure pieces of the `rid` code generator. rid generates
Dart bindings for a Rust model.

1. **The Dart type renderer** (`rid-macro-impl/src/render_dart/render_dart_type.rs`).
   A `DartType` is one of `Int32`, `Int64`, `Bool`, `String`, `Custom(nullable,
   category, name)`, `Vec(nullable, inner)` or `Unit`. The category of a custom
   type is `Enum`, `Struct` or `Prim`. Four functions turn a `DartType` into text:
   - the Dart type name (`render_type`);
   - the `dart:ffi` width annotation (`render_type_attribute`);
   - the expression that converts a Dart argument into an FFI argument
     (`render_resolved_ffi_arg`);
   - the expression that converts a raw FFI result into a Dart value
     (`render_to_dart_for_snippet`).

   Around them sit the four `RenderDartTypeOpts` presets and the `RustType`
   composition functions.
2. **The todo example's state machine** (`examples/dart/todo/src/app.rs`). It
   covers `Model::update` over the `Msg` enum, `update_todo`, `filtered_todos`
   with the `Todo` ordering, and the initial model.

Modules:
- `Wrappers`: `Option` and `Result`.
- `Strings`: decimal numerals, Dart identifiers and substring occurrence.
- `RidCommon`: the two `rid_common` names.
- `DartTypes`: the `DartType` datatype.
- `DartRender`: the four renderers, the presets and the composition layer.
- `RenderLaws`: laws about nullability, `raw`, categories and nesting.
- `DartTypeSyntax`: a printer and parser for Dart type syntax. It proves that
  every rendered type name parses back to the type it projects.
- `DartExpr` and `Marshalling`: a tiny Dart expression language with an
  evaluator. They prove what the rendered marshalling expressions compute.
- `TodoModel`, `TodoOrder` and `TodoApp`: the todo example.

Behaviour of the code worth knowing:
- A nullable `Prim` custom type returns as `snip?` (render_dart_type.rs:134),
  while a nullable struct returns as `snip?.toDart()` (line 132).
- A `Unit` nested inside a `Vec` renders as `List<>`. Nothing in the renderer
  rejects it, and the text is not a valid Dart type.
- A `Bool` return value is the raw snippet unchanged (render_dart_type.rs:116).
  The raw `1`/`0` is not converted back to `true`/`false`, although a `Bool`
  argument is encoded as `1`/`0`.
- A non-nullable `Prim` custom type returns as the bare snippet
  (render_dart_type.rs:149), with no `toDart()` call.

`filtered_todos` sorts with `vec.sort()`, which compares with `PartialOrd::lt`.
`Todo` *derives* `PartialOrd`, so it compares id, then title, then completion.
The hand-written `Ord` compares ids only. The model sorts by the derived order,
because that is the order the code uses. Under the model invariant ids are
distinct, so the two orders agree (`TodoApp.FilteredTodosStrictlyIncreasing`).

## Model

| member | source | states |
|---|---|---|
| `DartRender.RenderType` | rid-macro-impl/src/render_dart/render_dart_type.rs:24-64 | If custom names are identifiers, the type name ends in `?` exactly when the outer type is nullable. `Unit` renders as the empty string. |
| `DartRender.RenderTypeAttribute` | rid-macro-impl/src/render_dart/render_dart_type.rs:66-76 | An attribute exists exactly for `Int32` and `Int64`. |
| `DartRender.RenderResolvedFfiArg` | rid-macro-impl/src/render_dart/render_dart_type.rs:78-108 | Rendering fails (the `todo!`) exactly for `Unit`. Every other expression starts with the argument name `arg<slot>`. |
| `DartRender.RenderToDartForSnippet` | rid-macro-impl/src/render_dart/render_dart_type.rs:110-165 | Rendering fails (the `abort!`) exactly for `Unit`. For every non-custom shape the expression starts with the snippet. |
| `DartRender.PresetsCoverAllOptions` | rid-macro-impl/src/render_dart/render_dart_type.rs:168-198 | `attr_raw`, `raw`, `attr` and `plain` are pairwise different, and every option value is one of them. |
| `DartRender.RenderDartType` | rid-macro-impl/src/render_dart/render_dart_type.rs:200-222 | The result always ends with the type name. It is longer than the name exactly when attributes are requested and the type is `Int32` or `Int64`. The extra prefix is then the attribute followed by a space. |
| `DartRender.RenderDartAndFfiType` | rid-macro-impl/src/render_dart/render_dart_type.rs:224-234 | The attribute part is present exactly for the two int widths. Joined with a space, the pair is `render_dart_type` with attributes on; the name alone is `render_dart_type` with attributes off. |
| `RenderLaws.NullableAppendsMarker` | rid-macro-impl/src/render_dart/render_dart_type.rs:27-61 | For every non-`Unit` shape, the nullable rendering is the non-nullable rendering plus `?`. A nullable `Vec` is `List<inner>?`, with the inner type rendered unchanged using the same `raw`. |
| `RenderLaws.CustomRendering` | rid-macro-impl/src/render_dart/render_dart_type.rs:35-54 | An enum renders as `int`/`int?` when `raw` is set and as its name/`name?` otherwise. Struct and Prim render as the name/`name?` whatever `raw` is. |
| `RenderLaws.RawIrrelevantWithoutEnums` | rid-macro-impl/src/render_dart/render_dart_type.rs:24-63 | Without an enum anywhere in the nesting, `render_type(true)` equals `render_type(false)`. |
| `RenderLaws.TypeRenderingExamples` | rid-macro-impl/src/render_dart/render_dart_type.rs:56-62 | `Unit` renders as empty for both `raw` values. A nullable list of ints is `List<int>?`, not `List<int?>`. Nested lists render as `List<List<int>>`. `Filter` is `int` when raw and `Filter?` when nullable and not raw. |
| `RenderLaws.AttributeByWidth` | rid-macro-impl/src/render_dart/render_dart_type.rs:66-76 | The attributes are `@<ffi>.Int32()` and `@<ffi>.Int64()`. They do not depend on nullability and differ from each other. |
| `RenderLaws.FfiArgByShape` | rid-macro-impl/src/render_dart/render_dart_type.rs:78-108 | Bool is `argN ? 1 : 0`. Nullable bool is `argN == null ? 0 : argN ? 1 : 0`. String is `argN.<toNative>()` or `argN?.<toNative>()`. Ints, customs and lists are `argN`. |
| `RenderLaws.FfiArgPassThroughExactly` | rid-macro-impl/src/render_dart/render_dart_type.rs:99-105 | The argument passes through unchanged exactly for `Int32`, `Int64`, `Custom` and `Vec`. |
| `RenderLaws.FfiArgNullabilityMattersExactly` | rid-macro-impl/src/render_dart/render_dart_type.rs:81-105 | Nullability changes the argument expression exactly for `Bool` and `String`. For other shapes it is ignored, which is the gap the source's TODO notes. |
| `RenderLaws.ArgNamesDistinct` | rid-macro-impl/src/render_dart/render_dart_type.rs:78-105 | Different slots give different argument names. |
| `RenderLaws.ToDartScalars` | rid-macro-impl/src/render_dart/render_dart_type.rs:113-121 | Ints, bool and String return the snippet unchanged, plus `?` when nullable. |
| `RenderLaws.ToDartByShape` | rid-macro-impl/src/render_dart/render_dart_type.rs:122-157 | Enum gives `T.values[snip]` or the null-guarded closure. Struct gives `snip.toDart()` or `snip?.toDart()`. Prim gives `snip` or `snip?`. Vec gives `snip.toDart()` or `snip?.toDart()`. |
| `RenderLaws.ToDartNullableForm` | rid-macro-impl/src/render_dart/render_dart_type.rs:113-157 | Nullability appends `?` for scalars and Prim, and makes the `toDart()` call null-aware for structs and lists. For an enum, the non-nullable lookup on `x` is wrapped in a null guard. |
| `RenderLaws.ToDartVecIgnoresInner` | rid-macro-impl/src/render_dart/render_dart_type.rs:152-157 | A list's return expression does not depend on its element type, so the conversion is applied once, at the outer level. |
| `RenderLaws.ToDartEmbedsSnippet` | rid-macro-impl/src/render_dart/render_dart_type.rs:110-157 | Every return expression contains the raw snippet. |
| `DartTypeSyntax.RenderIsPrintOfProjection` | rid-macro-impl/src/render_dart/render_dart_type.rs:24-63 | `render_type` prints the projected Dart type. Both int widths project to `int`, and with `raw` an enum projects to `int`. |
| `DartTypeSyntax.RenderedTypeParses` | rid-macro-impl/src/render_dart/render_dart_type.rs:24-63 | If custom names are identifiers, the rendered text reads back as the projected type, including list nesting and the position of each `?`. The text is valid Dart type syntax exactly when no `Unit` is nested inside a `Vec`. |
| `DartTypeSyntax.ListOfUnitIsNotDart` | rid-macro-impl/src/render_dart/render_dart_type.rs:56-62 | A `Vec` of `Unit` renders as `List<>` or `List<>?`. That text is not a valid Dart type. |
| `DartTypeSyntax.RenderAgreesIffSameProjection` | rid-macro-impl/src/render_dart/render_dart_type.rs:24-63 | If custom names are identifiers, two types render to the same text exactly when they project to the same Dart type. |
| `DartTypeSyntax.RawMattersOnlyForEnums` | rid-macro-impl/src/render_dart/render_dart_type.rs:35-63 | If custom names are identifiers, `raw` leaves the rendering unchanged exactly when every enum in the type is literally named `int`. |
| `Marshalling.ArgTextShowsArgExpr` | rid-macro-impl/src/render_dart/render_dart_type.rs:78-105 | The rendered argument text is the printout of a Dart expression tree. |
| `Marshalling.ArgExprComputesEncoding` | rid-macro-impl/src/render_dart/render_dart_type.rs:78-105 | Evaluating that expression encodes the argument: a bool becomes 1/0 with null as 0, and a string becomes a native buffer with null kept. Ints, customs and lists pass through unchanged. |
| `Marshalling.BoolArgumentExample` | rid-macro-impl/src/render_dart/render_dart_type.rs:87 | A non-nullable `true` or `false` argument arrives as 1 or 0. |
| `Marshalling.ReturnTextShowsReturnExpr` | rid-macro-impl/src/render_dart/render_dart_type.rs:110-165 | Where the output is a Dart expression, the rendered text is its printout. The only other outputs are `Unit` and the `snip?` forms. |
| `Marshalling.ReturnExprComputesClientValue` | rid-macro-impl/src/render_dart/render_dart_type.rs:122-157 | Evaluating the return expression gives the enum value at the raw index, or null through the closure or a `?.` call. A struct or list handle gives its `toDart()` conversion. |
| `Marshalling.EnumReturnExample` | rid-macro-impl/src/render_dart/render_dart_type.rs:122-145 | With `Filter`'s three values, a raw index of 2 reads back as the third value, nullable or not. |
| `Marshalling.FilterReturnRoundTrip` | examples/dart/todo/src/app.rs:111-117 | For every `Filter`, the `u8` index Rust returns is read by the rendered enum expression as the value at that index, and `Filter.values` at that index is the same filter. |
| `Marshalling.RawReturnsPassThrough` | rid-macro-impl/src/render_dart/render_dart_type.rs:116-149 | A non-nullable `bool` or `Prim` return renders as the bare snippet and evaluates to the raw value. A returned `1` stays the integer `1`, while a `true` argument is encoded as `1`. |
| `TodoModel.FilterIndexRoundTrip` | examples/dart/todo/src/app.rs:111-117 | Rust's `u8` discriminant and Dart's `Filter.values[i]` agree in both directions. |
| `TodoOrder.Sort` | examples/dart/todo/src/app.rs:86 | `vec.sort()` returns a permutation of its input that is sorted by the derived `PartialOrd` of `Todo`. |
| `TodoOrder.SortedUnique` | examples/dart/todo/src/app.rs:95-106 | That order is total and antisymmetric, so there is only one sorted permutation. Any sorting algorithm, stable or not, gives the same result. |
| `TodoApp.FindTodo` | examples/dart/todo/src/app.rs:33-40 | Returns the position of the first todo with the id, or `None` exactly when no todo has it. |
| `TodoApp.SwapRemove` | examples/dart/todo/src/app.rs:41 | `swap_remove` shortens the vector by one and moves the former last element into the removed index. Other positions are unchanged, and the contents lose exactly the removed todo. |
| `TodoApp.SelectKeepsExactlyMatching` | examples/dart/todo/src/app.rs:44 | `retain` and `iter().filter()` keep exactly the todos that pass the filter. |
| `TodoApp.SelectAppend` | examples/dart/todo/src/app.rs:44 | Selection keeps the original relative order, because it distributes over concatenation. |
| `TodoApp.UpdateTodo` | examples/dart/todo/src/app.rs:67-72 | Changes only the completion flag of the first todo with the id. Ids, titles and all other todos are unchanged, and a missing id is a no-op. |
| `TodoApp.SetAllCompleted` | examples/dart/todo/src/app.rs:56-61 | Sets every completion flag to the given value. Length, ids and titles are unchanged. |
| `TodoApp.Update` | examples/dart/todo/src/app.rs:20-65 | Only `AddTodo` changes `last_added_id`. Only `SetFilter` changes the filter, and it replaces nothing else. |
| `TodoApp.FilteredTodos` | examples/dart/todo/src/app.rs:76-88 | Shows exactly the todos the filter selects, as a permutation of the selection, ordered non-decreasingly by id. |
| `TodoApp.InitialModelIsEmpty` | examples/dart/todo/src/app.rs:146-150 | The initial model has `last_added_id` 0, no todos and filter `All`. It satisfies the invariant and shows nothing. |
| `TodoApp.UpdatePreservesValid` | examples/dart/todo/src/app.rs:20-65 | Every message keeps todo ids distinct and no greater than `last_added_id`. |
| `TodoApp.AddTodoAppendsFreshTodo` | examples/dart/todo/src/app.rs:24-32 | `AddTodo` increments `last_added_id` and appends one pending todo with the new id and the given title; the filter is unchanged. No earlier todo has that id. |
| `TodoApp.RemoveTodoEffect` | examples/dart/todo/src/app.rs:33-42 | On every model, the first todo with the id is swap-removed, and a missing id leaves the model unchanged. On a valid model, no todo with that id remains. |
| `TodoApp.RemoveCompletedKeepsPending` | examples/dart/todo/src/app.rs:44 | Keeps exactly the pending todos, in their original order. Nothing else changes. |
| `TodoApp.ToggleTwiceIsIdentity` | examples/dart/todo/src/app.rs:52-54 | Toggling the same id twice restores the model. |
| `TodoApp.CompleteAndRestartIdempotent` | examples/dart/todo/src/app.rs:46-51 | Completing or restarting the same id twice is the same as doing it once. |
| `TodoApp.CompleteAllAndRestartAllViews` | examples/dart/todo/src/app.rs:56-61 | After `CompleteAll` the Pending view is empty and the Completed view shows every todo. `RestartAll` is the mirror image. |
| `TodoApp.FilteredTodosStrictlyIncreasing` | examples/dart/todo/src/app.rs:95-106 | On a valid model the shown todos are strictly increasing by id, so the derived order and the id-only `Ord` agree. The result is the one sorted arrangement of the selection. |

## Left out

- `DartType::from` and `TypeInfoMap` are not part of this model. The composition functions take an already-built `DartType`, and a custom type's category is a plain field.
- `RustType::render_to_dart_for_arg` (render_dart_type.rs:236-242) only converts its type and calls `render_to_dart_for_snippet`. It is covered by `DartRender.RenderToDartForSnippet`.
- `rid_common` is not part of this model. Its `DART_FFI` and `STRING_TO_NATIVE_INT8` are constants here, with the values "dart_ffi" and "toNativeInt8". The proofs use only one fact about them: `STRING_TO_NATIVE_INT8` differs from `toDart`.
- `abort!` and `todo!` on `Unit` are modelled as `Failure(UnsupportedType(..))` results, not as panics.
- Marshalling.ReturnExpr: the `snip?` outputs for nullable ints, bool, String and Prim get no evaluation meaning. The text is pinned down exactly, but `x?` is not an expression of the modelled Dart fragment.
- Marshalling.ArgExprComputesEncoding: Dart `int` values are unbounded here. The 32- and 64-bit ranges the FFI attribute pins are not modelled.
- DartExpr.Show prints without parentheses. The claim that Dart precedence reads these trees as intended (`==` binds tighter than `?:`, which groups to the right) is a comment, not a proof.
- DartTypeSyntax.RenderedTypeParses: `WellFormed` is Dart type syntax up to reserved words. A custom type named after a Dart reserved word (for example a Rust `struct class`, legal in Rust) counts as well-formed but is not a valid Dart type name. Non-ASCII Rust type names fall outside `NamesValid` and are not covered.
- TodoModel.FilterValues: assumes the generated Dart `Filter` enum lists its values in Rust declaration order. The Dart enum generator is not part of this model, and `TodoModel.FilterIndexRoundTrip` and `Marshalling.FilterReturnRoundTrip` rest on this assumption, as the enum lookups at render_dart_type.rs:125 and :140 do.
- TodoApp.Update: `AddTodo` requires `last_added_id` to be below `u32::MAX`. The source's `+= 1` would overflow there, which panics in debug builds and wraps in release builds; that overflow is not modelled.
- The `info!`/`warn!` logging in `update` and `update_todo` is a side effect only, so the not-found branches are no-ops.
- `init_model_ptr` and `free_model_ptr` manage raw pointers, boxes and `env_logger`. Only the initial model values are kept (`TodoModel.InitialModel`).
- The `#[rid::...]` attributes are code-generation plumbing and are not modelled.
- String comparison in the sort order is by `char` code point. For Rust `String`s this is the same as UTF-8 byte order.

=== FILE: dart_expr.dfy ===
/** The fragment of Dart expressions the marshalling renderers emit, with a
    printer and an evaluator, so that what a rendered expression computes
    can be stated. */
module DartExpr {
  import opened Wrappers
  import opened Strings
  import opened RidCommon
  import opened DartRender

  /** Runtime values on either side of the boundary. */
  datatype Value =
    | Null
    | BoolV(b: bool)
    | IntV(i: int)
    | Str(s: string)            // a Dart String
    | NativeStr(s: string)      // a native Pointer<Int8> holding the same text
    | EnumV(typeName: string, index: nat)
    | Converted(raw: Value)     // what a generated `toDart()` returns for `raw`

  datatype Expr =
    | Ref(source: string)       // an expression supplied by the caller, printed verbatim
    | IntLit(n: nat)
    | IsNull(operand: Expr)
    | Cond(test: Expr, yes: Expr, no: Expr)
    | Invoke(receiver: Expr, member: string, nullAware: bool)
    | EnumAt(typeName: string, index: Expr)
    | NullGuard(subject: Expr, body: Expr)   // binds the subject's value to `x` in `body`

  /** What `Ref`s stand for, and how many values each Dart enum has. */
  datatype Env = Env(vars: map<string, Value>, enumSizes: map<string, nat>)

  /** Dart source text of `e`. No parentheses are needed for the trees built
      here: `==` binds tighter than `?:`, which groups to the right. */
  function Show(e: Expr): string {
    match e
    case Ref(source) => source
    case IntLit(n) => Decimal(n)
    case IsNull(operand) => Show(operand) + " == null"
    case Cond(test, yes, no) => Show(test) + " ? " + Show(yes) + " : " + Show(no)
    case Invoke(receiver, member, nullAware) =>
      Show(receiver) + (if nullAware then "?." else ".") + member + "()"
    case EnumAt(typeName, index) => typeName + ".values[" + Show(index) + "]"
    case NullGuard(subject, body) =>
      "() { final x = " + Show(subject) + "; return x != null ? " + Show(body) + " : null; }()"
  }

  /** Calling a generated method on a non-null receiver. */
  function CallMethod(receiver: Value, member: string): Option<Value> {
    if member == StringToNativeInt8 && receiver.Str? then Some(NativeStr(receiver.s))
    else if member == ToDart then Some(Converted(receiver))
    else None
  }

  /** Dart evaluation; `None` is a runtime error (a null or non-bool condition,
      a method called on null without `?.`, an index out of range). */
  function Eval(e: Expr, env: Env): Option<Value> {
    match e
    case Ref(source) => if source in env.vars then Some(env.vars[source]) else None
    case IntLit(n) => Some(IntV(n))
    case IsNull(operand) =>
      (match Eval(operand, env)
       case Some(v) => Some(BoolV(v == Null))
       case None => None)
    case Cond(test, yes, no) =>
      (match Eval(test, env)
       case Some(BoolV(b)) => if b then Eval(yes, env) else Eval(no, env)
       case _ => None)
    case Invoke(receiver, member, nullAware) =>
      (match Eval(receiver, env)
       case Some(v) =>
         if v == Null then (if nullAware then Some(Null) else None)
         else CallMethod(v, member)
       case None => None)
    case EnumAt(typeName, index) =>
      (match Eval(index, env)
       case Some(IntV(k)) =>
         if typeName in env.enumSizes && 0 <= k < env.enumSizes[typeName]
         then Some(EnumV(typeName, k)) else None
       case _ => None)
    case NullGuard(subject, body) =>
      (match Eval(subject, env)
       case Some(v) =>
         if v == Null then Some(Null)
         else Eval(body, env.(vars := env.vars["x" := v]))
       case None => None)
  }
}

=== FILE: dart_render.dfy ===
/** `DartType::{render_type, render_type_attribute, render_resolved_ffi_arg,
    render_to_dart_for_snippet}`, the render options presets and the
    `RustType` composition layer, with the structural laws they obey. */
module DartRender {
  import opened Wrappers
  import opened Strings
  import opened RidCommon
  import opened DartTypes

  /** Rendering a marshalling expression for `Unit` aborts generation. */
  datatype RenderError = UnsupportedType(operation: string)

  /** Name of the generated client-form conversion method. */
  const ToDart: string := "toDart"

  predicate EndsWithMarker(s: string) {
    |s| > 0 && s[|s| - 1] == '?'
  }

  /** The Dart type name of `t`; with `raw` set an enum is passed as its `int` index. */
  function RenderType(t: DartType, raw: bool): (r: string)
    ensures NamesValid(t) ==> (IsNullable(t) <==> EndsWithMarker(r))
    ensures t.Unit? ==> r == ""
  {
    match t
    case Int32(n) => "int" + NullSuffix(n)
    case Int64(n) => "int" + NullSuffix(n)
    case Bool(n) => "bool" + NullSuffix(n)
    case String(n) => "String" + NullSuffix(n)
    case Custom(n, cat, name) =>
      if cat == Enum then
        (if raw then "int" else name) + NullSuffix(n)
      else
        name + NullSuffix(n)
    case Vec(n, inner) => "List<" + RenderType(inner, raw) + ">" + NullSuffix(n)
    case Unit => ""
  }

  /** The FFI width annotation: present for the fixed-width integers only. */
  function RenderTypeAttribute(t: DartType): (r: Option<string>)
    ensures r.Some? <==> t.Int32? || t.Int64?
  {
    match t
    case Int32(_) => Some("@" + DartFfi + ".Int32()")
    case Int64(_) => Some("@" + DartFfi + ".Int64()")
    case _ => None
  }

  /** The name of the generated parameter in position `slot`. */
  function Arg(slot: nat): string {
    "arg" + Decimal(slot)
  }

  /** The expression converting Dart argument `slot` into the raw FFI argument. */
  function RenderResolvedFfiArg(t: DartType, slot: nat): (r: Result<string, RenderError>)
    ensures r.Failure? <==> t.Unit?
    ensures r.Success? ==> Arg(slot) <= r.value
  {
    var a := Arg(slot);
    match t
    case Bool(n) =>
      if n then Success(a + " == null ? 0 : " + a + " ? 1 : 0")
      else Success(a + " ? 1 : 0")
    case String(n) =>
      if n then Success(a + "?." + StringToNativeInt8 + "()")
      else Success(a + "." + StringToNativeInt8 + "()")
    case Int32(_) => Success(a)
    case Int64(_) => Success(a)
    case Custom(_, _, _) => Success(a)
    case Vec(_, _) => Success(a)
    case Unit => Failure(UnsupportedType("render_resolved_ffi_arg"))
  }

  /** The expression converting the raw value `snip` returned over FFI into its Dart form. */
  function RenderToDartForSnippet(t: DartType, snip: string): (r: Result<string, RenderError>)
    ensures r.Failure? <==> t.Unit?
    ensures r.Success? && !t.Custom? ==> snip <= r.value
  {
    match t
    case Int32(n) => Success(snip + NullSuffix(n))
    case Int64(n) => Success(snip + NullSuffix(n))
    case Bool(n) => Success(snip + NullSuffix(n))
    case String(n) => Success(snip + NullSuffix(n))
    case Custom(n, cat, name) =>
      if n then
        (match cat
         case Enum =>
           Success("() { final x = " + snip + "; return x != null ? " + name + ".values[x] : null; }()")
         case Struct => Success(snip + "?." + ToDart + "()")
         case Prim => Success(snip + "?"))
      else
        (match cat
         case Enum => Success(name + ".values[" + snip + "]")
         case Struct => Success(snip + "." + ToDart + "()")
         case Prim => Success(snip))
    case Vec(n, _) =>
      if n then Success(snip + "?." + ToDart + "()") else Success(snip + "." + ToDart + "()")
    case Unit => Failure(UnsupportedType("render_to_dart"))
  }

  /** `RenderDartTypeOpts`: enum-as-int rendering and width-attribute prefix. */
  datatype RenderDartTypeOpts = RenderDartTypeOpts(raw: bool, includeTypeAttribute: bool)

  function AttrRaw(): RenderDartTypeOpts { RenderDartTypeOpts(true, true) }
  function Raw(): RenderDartTypeOpts { RenderDartTypeOpts(true, false) }
  function Attr(): RenderDartTypeOpts { RenderDartTypeOpts(false, true) }
  function Plain(): RenderDartTypeOpts { RenderDartTypeOpts(false, false) }

  /** The four presets are pairwise different and every options value is one of them. */
  lemma PresetsCoverAllOptions(o: RenderDartTypeOpts)
    ensures o == AttrRaw() || o == Raw() || o == Attr() || o == Plain()
    ensures AttrRaw() != Raw() && AttrRaw() != Attr() && AttrRaw() != Plain()
    ensures Raw() != Attr() && Raw() != Plain() && Attr() != Plain()
  {
  }

  /** `RustType::render_dart_type`, given the already-built `DartType`: the type
      name, prefixed by the width attribute and a space when the options ask
      for it and one exists. */
  function RenderDartType(t: DartType, opts: RenderDartTypeOpts): (r: string)
    ensures var name := RenderType(t, opts.raw);
      |name| <= |r| && r[|r| - |name|..] == name
    ensures var name := RenderType(t, opts.raw);
      |r| > |name| <==> opts.includeTypeAttribute && (t.Int32? || t.Int64?)
    ensures var name := RenderType(t, opts.raw);
      |r| > |name| ==> r[..|r| - |name|] == RenderTypeAttribute(t).value + " "
  {
    if opts.includeTypeAttribute then
      match RenderTypeAttribute(t)
      case Some(attr) => attr + " " + RenderType(t, opts.raw)
      case None => RenderType(t, opts.raw)
    else
      RenderType(t, opts.raw)
  }

  /** `RustType::render_dart_and_ffi_type`: the type name and the attribute, separately.
      Joined with a space they are exactly what `RenderDartType` prints with the
      attribute switched on, and the name alone is what it prints with it off. */
  function RenderDartAndFfiType(t: DartType, raw: bool): (r: (string, Option<string>))
    ensures r.1.Some? <==> t.Int32? || t.Int64?
    ensures RenderDartType(t, RenderDartTypeOpts(raw, true))
         == (if r.1.Some? then r.1.value + " " + r.0 else r.0)
    ensures RenderDartType(t, RenderDartTypeOpts(raw, false)) == r.0
  {
    (RenderType(t, raw), RenderTypeAttribute(t))
  }
}

=== FILE: dart_type_syntax.dfy ===
/** The Dart type syntax `RenderType` produces, as a tree with a printer and
    a parser. Rendering is shown to be "project, then print", and printing to
    be undone by parsing, so the rendered text determines the projected type.
    It is valid Dart type syntax (up to reserved words, which identifiers
    here do not exclude) exactly when no `List` is left without an element
    type. */
module DartTypeSyntax {
  import opened Wrappers
  import opened Strings
  import opened DartTypes
  import opened DartRender

  /** A Dart type as written: no type at all, a (possibly nullable) type name,
      or a (possibly nullable) `List<...>`. */
  datatype TypeExpr =
    | NoType
    | Named(nullable: bool, name: string)
    | ListOf(nullable: bool, elem: TypeExpr)

  /** Every type name in `e` is a Dart identifier: the trees the reader produces. */
  predicate NamesIdent(e: TypeExpr) {
    match e
    case NoType => true
    case Named(_, name) => IsIdent(name)
    case ListOf(_, elem) => NamesIdent(elem)
  }

  /** Valid Dart type syntax up to reserved words: identifiers as names, and
      every `List` has an element type (`List<>` is not a Dart type). */
  predicate WellFormed(e: TypeExpr) {
    match e
    case NoType => true
    case Named(_, name) => IsIdent(name)
    case ListOf(_, elem) => elem != NoType && WellFormed(elem)
  }

  function Print(e: TypeExpr): string {
    match e
    case NoType => ""
    case Named(n, name) => name + NullSuffix(n)
    case ListOf(n, elem) => "List<" + Print(elem) + ">" + NullSuffix(n)
  }

  predicate IsListBody(s: string) {
    |s| >= 6 && s[..5] == "List<" && s[|s| - 1] == '>'
  }

  /** Reads a type as `RenderType` writes it: an optional trailing `?`, then
      `List<...>` or an identifier. It does not insist on an element type. */
  function ParseType(s: string): (r: Option<TypeExpr>)
    ensures r.Some? ==> NamesIdent(r.value)
    decreases |s|
  {
    if s == [] then Some(NoType)
    else
      var nullable := s[|s| - 1] == '?';
      var body := if nullable then s[..|s| - 1] else s;
      if IsListBody(body) then
        match ParseType(body[5..|body| - 1])
        case Some(elem) => Some(ListOf(nullable, elem))
        case None => None
      else if IsIdent(body) then Some(Named(nullable, body))
      else None
  }

  lemma ParsePrintNamed(n: bool, name: string)
    requires IsIdent(name)
    ensures ParseType(Print(Named(n, name))) == Some(Named(n, name))
  {
    var s := Print(Named(n, name));
    assert s == name + NullSuffix(n);
    assert IsIdentChar(name[|name| - 1]);
    assert (if n then s[..|s| - 1] else s) == name;
  }

  /** Parsing undoes printing. */
  lemma {:induction false} ParsePrint(e: TypeExpr)
    requires NamesIdent(e)
    ensures ParseType(Print(e)) == Some(e)
  {
    match e
    case NoType =>
    case Named(n, name) => ParsePrintNamed(n, name);
    case ListOf(n, elem) =>
      var s := Print(e);
      var body := "List<" + Print(elem) + ">";
      assert s == body + NullSuffix(n);
      assert (if n then s[..|s| - 1] else s) == body;
      assert body[..5] == "List<";
      assert body[5..|body| - 1] == Print(elem);
      ParsePrint(elem);
  }

  /** Type trees with identifier names print to different texts. */
  lemma PrintInjective(e1: TypeExpr, e2: TypeExpr)
    requires NamesIdent(e1) && NamesIdent(e2)
    ensures Print(e1) == Print(e2) ==> e1 == e2
  {
    ParsePrint(e1);
    ParsePrint(e2);
  }

  /** The Dart type a `DartType` denotes: both int widths are `int`, and with
      `raw` an enum is its `int` index. */
  function DartTypeOf(t: DartType, raw: bool): (r: TypeExpr)
    ensures NamesValid(t) ==> NamesIdent(r)
    ensures r == NoType <==> t.Unit?
  {
    match t
    case Int32(n) => Named(n, "int")
    case Int64(n) => Named(n, "int")
    case Bool(n) => Named(n, "bool")
    case String(n) => Named(n, "String")
    case Custom(n, cat, name) => Named(n, if cat == Enum && raw then "int" else name)
    case Vec(n, inner) => ListOf(n, DartTypeOf(inner, raw))
    case Unit => NoType
  }

  /** `RenderType` is printing the projected type. */
  lemma {:induction false} RenderIsPrintOfProjection(t: DartType, raw: bool)
    ensures RenderType(t, raw) == Print(DartTypeOf(t, raw))
  {
    match t
    case Vec(_, inner) => RenderIsPrintOfProjection(inner, raw);
    case _ =>
  }

  /** The projected type is valid Dart syntax exactly when no `Unit` sits inside a `Vec`. */
  lemma {:induction false} ProjectionWellFormedIff(t: DartType, raw: bool)
    requires NamesValid(t)
    ensures WellFormed(DartTypeOf(t, raw)) <==> NoNestedUnit(t)
  {
    match t
    case Vec(_, inner) => ProjectionWellFormedIff(inner, raw);
    case _ =>
  }

  /** The rendered text parses back to the projected type: a nullable list
      marks only the list, and nested lists stay nested. When custom names are
      identifiers, the text is valid Dart type syntax (up to reserved words)
      exactly when no `Unit` is nested in a `Vec`; otherwise it contains `List<>`. */
  lemma RenderedTypeParses(t: DartType, raw: bool)
    requires NamesValid(t)
    ensures ParseType(RenderType(t, raw)) == Some(DartTypeOf(t, raw))
    ensures WellFormed(DartTypeOf(t, raw)) <==> NoNestedUnit(t)
  {
    RenderIsPrintOfProjection(t, raw);
    ParsePrint(DartTypeOf(t, raw));
    ProjectionWellFormedIff(t, raw);
  }

  /** A list of `Unit` renders as `List<>`, which reads back but is not a Dart type. */
  lemma ListOfUnitIsNotDart(n: bool, raw: bool)
    ensures RenderType(Vec(n, Unit), raw) == "List<>" + NullSuffix(n)
    ensures ParseType(RenderType(Vec(n, Unit), raw)) == Some(ListOf(n, NoType))
    ensures !WellFormed(ListOf(n, NoType))
  {
    RenderedTypeParses(Vec(n, Unit), raw);
  }

  /** Two types render alike exactly when they project to the same Dart type. */
  lemma RenderAgreesIffSameProjection(t1: DartType, t2: DartType, raw: bool)
    requires NamesValid(t1) && NamesValid(t2)
    ensures RenderType(t1, raw) == RenderType(t2, raw) <==> DartTypeOf(t1, raw) == DartTypeOf(t2, raw)
  {
    RenderIsPrintOfProjection(t1, raw);
    RenderIsPrintOfProjection(t2, raw);
    PrintInjective(DartTypeOf(t1, raw), DartTypeOf(t2, raw));
  }

  lemma {:induction false} ProjectionRawIrrelevantIff(t: DartType)
    ensures DartTypeOf(t, true) == DartTypeOf(t, false) <==> EnumsNamed(t, "int")
  {
    match t
    case Vec(_, inner) => ProjectionRawIrrelevantIff(inner);
    case _ =>
  }

  /** `raw` changes the rendering exactly when the type holds an enum not
      literally called `int`; in particular it never matters without enums. */
  lemma RawMattersOnlyForEnums(t: DartType)
    requires NamesValid(t)
    ensures RenderType(t, true) == RenderType(t, false) <==> EnumsNamed(t, "int")
  {
    RenderIsPrintOfProjection(t, true);
    RenderIsPrintOfProjection(t, false);
    ProjectionRawIrrelevantIff(t);
    if RenderType(t, true) == RenderType(t, false) {
      PrintInjective(DartTypeOf(t, true), DartTypeOf(t, false));
    }
  }
}

=== FILE: dart_types.dfy ===
/** The Dart-side view of a Rust type that the renderers consume. */
module DartTypes {
  import opened Strings

  /** How a custom (user-declared) type is represented across the boundary. */
  datatype Category = Enum | Struct | Prim

  /** Every shape but `Unit` carries its own nullability flag; a `Vec`'s flag
      belongs to the list, never to its elements. */
  datatype DartType =
    | Int32(nullable: bool)
    | Int64(nullable: bool)
    | Bool(nullable: bool)
    | String(nullable: bool)
    | Custom(nullable: bool, cat: Category, name: string)
    | Vec(nullable: bool, inner: DartType)
    | Unit

  predicate IsNullable(t: DartType) {
    !t.Unit? && t.nullable
  }

  /** `t` with its own nullability flag set to `nullable`; nested types keep theirs. */
  function WithNullable(t: DartType, nullable: bool): (r: DartType)
    requires !t.Unit?
    ensures IsNullable(r) == nullable
  {
    match t
    case Int32(_) => Int32(nullable)
    case Int64(_) => Int64(nullable)
    case Bool(_) => Bool(nullable)
    case String(_) => String(nullable)
    case Custom(_, cat, name) => Custom(nullable, cat, name)
    case Vec(_, inner) => Vec(nullable, inner)
  }

  /** Dart's nullability suffix. */
  function NullSuffix(nullable: bool): string {
    if nullable then "?" else ""
  }

  /** Every custom type name inside `t` is an ASCII Dart identifier. */
  predicate NamesValid(t: DartType) {
    match t
    case Custom(_, _, name) => IsIdent(name)
    case Vec(_, inner) => NamesValid(inner)
    case _ => true
  }

  /** `Unit` occurs in `t` at most at the top, never as a `Vec`'s element type. */
  predicate NoNestedUnit(t: DartType) {
    match t
    case Vec(_, inner) => !inner.Unit? && NoNestedUnit(inner)
    case _ => true
  }

  /** `t` mentions an `Enum` custom type somewhere in its `Vec` nesting. */
  predicate HasEnum(t: DartType) {
    match t
    case Custom(_, cat, _) => cat == Enum
    case Vec(_, inner) => HasEnum(inner)
    case _ => false
  }

  /** Every `Enum` custom type inside `t` is called `name`. */
  predicate EnumsNamed(t: DartType, name: string) {
    match t
    case Custom(_, cat, n) => cat == Enum ==> n == name
    case Vec(_, inner) => EnumsNamed(inner, name)
    case _ => true
  }
}

=== FILE: marshalling.dfy ===
/** What the rendered marshalling expressions compute. Each renderer's text
    is shown to be the printout of an expression tree, and evaluating that
    tree is shown to perform the intended conversion. */
module Marshalling {
  import opened Wrappers
  import opened RidCommon
  import opened DartTypes
  import opened DartRender
  import opened DartExpr
  import TodoModel

  // ---------------------------------------------------------------------------
  // Argument direction: Dart value -> raw FFI argument
  // ---------------------------------------------------------------------------

  /** The expression tree behind `RenderResolvedFfiArg`. */
  function ArgExpr(t: DartType, slot: nat): Expr
    requires !t.Unit?
  {
    var a := Ref(Arg(slot));
    match t
    case Bool(n) =>
      if n then Cond(IsNull(a), IntLit(0), Cond(a, IntLit(1), IntLit(0)))
      else Cond(a, IntLit(1), IntLit(0))
    case String(n) => Invoke(a, StringToNativeInt8, n)
    case _ => a
  }

  lemma ShowBoolToInt(a: string)
    ensures Show(Cond(Ref(a), IntLit(1), IntLit(0))) == a + " ? 1 : 0"
  {
  }

  lemma ShowNullableBoolToInt(a: string)
    ensures Show(Cond(IsNull(Ref(a)), IntLit(0), Cond(Ref(a), IntLit(1), IntLit(0))))
         == a + " == null ? 0 : " + a + " ? 1 : 0"
  {
    ShowBoolToInt(a);
    assert Show(IntLit(0)) == "0";
    assert " == null" + " ? " + "0" + " : " == " == null ? 0 : ";
    var e := Show(Cond(IsNull(Ref(a)), IntLit(0), Cond(Ref(a), IntLit(1), IntLit(0))));
    assert Show(IsNull(Ref(a))) == a + " == null";
    assert e == Show(IsNull(Ref(a))) + " ? " + Show(IntLit(0)) + " : "
                + Show(Cond(Ref(a), IntLit(1), IntLit(0)));
    assert e == a + " == null" + " ? " + "0" + " : " + (a + " ? 1 : 0");
    assert e == a + (" == null" + " ? " + "0" + " : ") + (a + " ? 1 : 0");
  }

  /** The rendered argument text is the printout of `ArgExpr`. */
  lemma ArgTextShowsArgExpr(t: DartType, slot: nat)
    requires !t.Unit?
    ensures RenderResolvedFfiArg(t, slot) == Success(Show(ArgExpr(t, slot)))
  {
    match t
    case Bool(n) =>
      if n { ShowNullableBoolToInt(Arg(slot)); } else { ShowBoolToInt(Arg(slot)); }
    case _ =>
  }

  /** The Dart values a parameter of type `t` can hold. Customs and lists are
      opaque to this direction, so any value stands for them. */
  predicate Inhabits(v: Value, t: DartType) {
    match t
    case Int32(n) => v.IntV? || (n && v == Null)
    case Int64(n) => v.IntV? || (n && v == Null)
    case Bool(n) => v.BoolV? || (n && v == Null)
    case String(n) => v.Str? || (n && v == Null)
    case Custom(n, _, _) => n || v != Null
    case Vec(n, _) => n || v != Null
    case Unit => false
  }

  /** The raw argument the boundary expects: a bool as 1/0 with null as 0, a
      string as a native buffer (null staying null), everything else as is. */
  function FfiEncoding(t: DartType, v: Value): Value
    requires Inhabits(v, t)
  {
    match t
    case Bool(_) => if v == Null then IntV(0) else IntV(if v.b then 1 else 0)
    case String(_) => if v == Null then Null else NativeStr(v.s)
    case _ => v
  }

  /** Evaluating the rendered argument expression performs `FfiEncoding`. */
  lemma ArgExprComputesEncoding(t: DartType, slot: nat, v: Value, env: Env)
    requires Inhabits(v, t)
    requires Arg(slot) in env.vars && env.vars[Arg(slot)] == v
    ensures Eval(ArgExpr(t, slot), env) == Some(FfiEncoding(t, v))
  {
    var a := Ref(Arg(slot));
    assert Eval(a, env) == Some(v);
    match t
    case Bool(n) =>
      var test := Cond(a, IntLit(1), IntLit(0));
      if v != Null {
        assert Eval(test, env) == Some(IntV(if v.b then 1 else 0));
      }
      if n {
        assert Eval(IsNull(a), env) == Some(BoolV(v == Null));
      }
    case String(n) =>
    case _ =>
  }

  /** A non-nullable bool argument `true`/`false` arrives as `1`/`0`. */
  lemma BoolArgumentExample(b: bool)
    ensures var env := Env(map[Arg(0) := BoolV(b)], map[]);
      RenderResolvedFfiArg(Bool(false), 0) == Success(Show(ArgExpr(Bool(false), 0)))
      && Eval(ArgExpr(Bool(false), 0), env) == Some(IntV(if b then 1 else 0))
  {
    ArgTextShowsArgExpr(Bool(false), 0);
  }

  // ---------------------------------------------------------------------------
  // Return direction: raw FFI result -> Dart value
  // ---------------------------------------------------------------------------

  /** The expression tree behind `RenderToDartForSnippet`, for the outputs that
      are Dart expressions. A nullable scalar or primitive-like custom renders
      as the snippet followed by `?`, which has no evaluation meaning here. */
  function ReturnExpr(t: DartType, snip: string): Option<Expr> {
    match t
    case Int32(n) => if n then None else Some(Ref(snip))
    case Int64(n) => if n then None else Some(Ref(snip))
    case Bool(n) => if n then None else Some(Ref(snip))
    case String(n) => if n then None else Some(Ref(snip))
    case Custom(n, cat, name) =>
      (match cat
       case Enum =>
         if n then Some(NullGuard(Ref(snip), EnumAt(name, Ref("x"))))
         else Some(EnumAt(name, Ref(snip)))
       case Struct => Some(Invoke(Ref(snip), ToDart, n))
       case Prim => if n then None else Some(Ref(snip)))
    case Vec(n, _) => Some(Invoke(Ref(snip), ToDart, n))
    case Unit => None
  }

  lemma ShowEnumAtX(name: string)
    ensures Show(EnumAt(name, Ref("x"))) == name + ".values[x]"
  {
  }

  lemma ShowEnumGuard(name: string, snip: string)
    ensures Show(NullGuard(Ref(snip), EnumAt(name, Ref("x"))))
         == "() { final x = " + snip + "; return x != null ? " + name + ".values[x] : null; }()"
  {
    ShowEnumAtX(name);
    assert ".values[x]" + " : null; }()" == ".values[x] : null; }()";
    var prefix := "() { final x = " + snip + "; return x != null ? ";
    assert Show(NullGuard(Ref(snip), EnumAt(name, Ref("x"))))
        == prefix + (name + ".values[x]") + " : null; }()";
    assert prefix + (name + ".values[x]") + " : null; }()"
        == prefix + name + (".values[x]" + " : null; }()");
  }

  /** Where a return expression exists, the rendered text is its printout;
      everywhere else but `Unit` the rendering is the snippet with `?` appended. */
  lemma ReturnTextShowsReturnExpr(t: DartType, snip: string)
    ensures ReturnExpr(t, snip).Some? ==>
      RenderToDartForSnippet(t, snip) == Success(Show(ReturnExpr(t, snip).value))
    ensures ReturnExpr(t, snip).None? <==>
      t.Unit? || RenderToDartForSnippet(t, snip) == Success(snip + "?")
  {
    var r := RenderToDartForSnippet(t, snip);
    assert snip + "" == snip;
    match t
    case Custom(n, cat, name) =>
      if cat == Enum && n {
        ShowEnumGuard(name, snip);
        assert |r.value| > |snip + "?"|;
      } else if cat == Struct {
        assert |r.value| > |snip + "?"|;
      }
    case Vec(n, _) =>
      assert |r.value| > |snip + "?"|;
    case _ =>
  }

  /** The raw values the boundary returns for `t`: an enum arrives as its
      index, a struct or list as a non-null handle unless nullable. */
  predicate RawInhabits(v: Value, t: DartType, enumSizes: map<string, nat>) {
    match t
    case Custom(n, Enum, name) =>
      (n && v == Null) || (v.IntV? && name in enumSizes && 0 <= v.i < enumSizes[name])
    case Custom(n, Struct, _) => n || v != Null
    case Vec(n, _) => n || v != Null
    case _ => true
  }

  /** The Dart value a raw return value stands for. */
  function ClientValue(t: DartType, v: Value, enumSizes: map<string, nat>): Value
    requires RawInhabits(v, t, enumSizes)
  {
    match t
    case Custom(_, Enum, name) => if v == Null then Null else EnumV(name, v.i)
    case Custom(_, Struct, _) => if v == Null then Null else Converted(v)
    case Vec(_, _) => if v == Null then Null else Converted(v)
    case _ => v
  }

  /** Evaluating the rendered return expression yields the Dart value: the
      enum value at the raw index, null for a null guarded by the closure or a
      `?.` call, the `toDart()` conversion of a struct or list handle. */
  lemma ReturnExprComputesClientValue(t: DartType, snip: string, v: Value, env: Env)
    requires ReturnExpr(t, snip).Some?
    requires snip in env.vars && env.vars[snip] == v
    requires RawInhabits(v, t, env.enumSizes)
    ensures Eval(ReturnExpr(t, snip).value, env) == Some(ClientValue(t, v, env.enumSizes))
  {
    assert Eval(Ref(snip), env) == Some(v);
    match t
    case Custom(n, Enum, name) =>
      if n && v != Null {
        var env' := env.(vars := env.vars["x" := v]);
        assert Eval(Ref("x"), env') == Some(v);
        assert Eval(EnumAt(name, Ref("x")), env') == Some(EnumV(name, v.i));
      }
    case Custom(n, Struct, _) =>
      assert ToDart != StringToNativeInt8;
    case Vec(n, _) =>
      assert ToDart != StringToNativeInt8;
    case _ =>
  }

  /** With `Filter`'s three values, the returned index 2 reads back as the
      third value, whether or not the return type is nullable. */
  lemma EnumReturnExample(n: bool)
    ensures var env := Env(map["store.filter" := IntV(2)], map["Filter" := 3]);
      Eval(ReturnExpr(Custom(n, Enum, "Filter"), "store.filter").value, env)
        == Some(EnumV("Filter", 2))
  {
  }

  /** A returned `Filter` index reads back, through `Filter.values`, as the
      filter whose discriminant Rust sent, for every filter. */
  lemma FilterReturnRoundTrip(n: bool, f: TodoModel.Filter)
    ensures var env := Env(map["store.filter" := IntV(TodoModel.FilterIndex(f))],
                           map["Filter" := |TodoModel.FilterValues|]);
      && Eval(ReturnExpr(Custom(n, Enum, "Filter"), "store.filter").value, env)
         == Some(EnumV("Filter", TodoModel.FilterIndex(f)))
      && TodoModel.FilterValues[TodoModel.FilterIndex(f)] == f
  {
    TodoModel.FilterIndexRoundTrip(f, 0);
    var env := Env(map["store.filter" := IntV(TodoModel.FilterIndex(f))],
                   map["Filter" := |TodoModel.FilterValues|]);
    ReturnExprComputesClientValue(Custom(n, Enum, "Filter"), "store.filter",
                                  IntV(TodoModel.FilterIndex(f)), env);
  }

  /** A non-nullable `bool` or primitive-like return is the raw value as it
      arrives: the `1`/`0` a bool crosses the boundary as is not turned back
      into `true`/`false`, unlike the argument direction's encoding. */
  lemma RawReturnsPassThrough(snip: string, name: string, v: Value, env: Env)
    requires snip in env.vars && env.vars[snip] == v
    ensures RenderToDartForSnippet(Bool(false), snip) == Success(snip)
    ensures RenderToDartForSnippet(Custom(false, Prim, name), snip) == Success(snip)
    ensures Eval(ReturnExpr(Bool(false), snip).value, env) == Some(v)
    ensures Eval(ReturnExpr(Custom(false, Prim, name), snip).value, env) == Some(v)
    ensures FfiEncoding(Bool(false), BoolV(true)) == IntV(1)
    ensures ClientValue(Bool(false), IntV(1), env.enumSizes) == IntV(1) != BoolV(true)
  {
    ReturnTextShowsReturnExpr(Bool(false), snip);
    ReturnTextShowsReturnExpr(Custom(false, Prim, name), snip);
  }
}

=== FILE: render_laws.dfy ===
/** Structural laws of the four renderers: how nullability, `raw`, the
    category of a custom type and `Vec` nesting show up in the output. */
module RenderLaws {
  import opened Wrappers
  import opened Strings
  import opened RidCommon
  import opened DartTypes
  import opened DartRender

  /** Nullability only appends `?` to the outermost type; a `Vec`'s element
      type is rendered the same, with the same `raw`, either way. */
  lemma NullableAppendsMarker(t: DartType, raw: bool)
    requires !t.Unit?
    ensures RenderType(WithNullable(t, true), raw) == RenderType(WithNullable(t, false), raw) + "?"
    ensures t.Vec? ==> RenderType(WithNullable(t, true), raw)
                       == "List<" + RenderType(t.inner, raw) + ">?"
  {
  }

  /** An enum renders as `int` when `raw` and as its own name otherwise; structs
      and primitive-like customs render as their name whatever `raw` is. */
  lemma CustomRendering(n: bool, cat: Category, name: string, raw: bool)
    ensures cat == Enum ==>
      RenderType(Custom(n, cat, name), raw) == (if raw then "int" else name) + NullSuffix(n)
    ensures cat != Enum ==>
      RenderType(Custom(n, cat, name), raw) == name + NullSuffix(n)
  {
  }

  /** Without an enum anywhere in its nesting, a type renders the same whatever `raw` is. */
  lemma {:induction false} RawIrrelevantWithoutEnums(t: DartType)
    requires !HasEnum(t)
    ensures RenderType(t, true) == RenderType(t, false)
  {
    match t
    case Vec(_, inner) => RawIrrelevantWithoutEnums(inner);
    case _ =>
  }

  /** Concrete renderings: `Unit` is empty, a nullable list marks only the list,
      and nested lists stay nested. */
  lemma TypeRenderingExamples()
    ensures RenderType(Unit, true) == "" && RenderType(Unit, false) == ""
    ensures RenderType(Vec(true, Int32(false)), false) == "List<int>?"
    ensures RenderType(Vec(false, Vec(false, Int32(false))), true) == "List<List<int>>"
    ensures RenderType(Custom(false, Enum, "Filter"), true) == "int"
    ensures RenderType(Custom(true, Enum, "Filter"), false) == "Filter?"
  {
  }

  /** The attribute names the integer width, ignores nullability, and tells the widths apart. */
  lemma AttributeByWidth(n: bool, m: bool)
    ensures RenderTypeAttribute(Int32(n)) == Some("@" + DartFfi + ".Int32()")
    ensures RenderTypeAttribute(Int64(n)) == Some("@" + DartFfi + ".Int64()")
    ensures RenderTypeAttribute(Int32(n)) == RenderTypeAttribute(Int32(m))
    ensures RenderTypeAttribute(Int32(n)) != RenderTypeAttribute(Int64(m))
  {
    var a, b := "@" + DartFfi + ".Int32()", "@" + DartFfi + ".Int64()";
    assert a[|a| - 4] != b[|b| - 4];
  }

  /** Argument expressions for every shape but `Unit`. */
  lemma FfiArgByShape(slot: nat, cat: Category, name: string, inner: DartType, n: bool)
    ensures RenderResolvedFfiArg(Bool(false), slot) == Success(Arg(slot) + " ? 1 : 0")
    ensures RenderResolvedFfiArg(Bool(true), slot)
         == Success(Arg(slot) + " == null ? 0 : " + Arg(slot) + " ? 1 : 0")
    ensures RenderResolvedFfiArg(String(false), slot)
         == Success(Arg(slot) + "." + StringToNativeInt8 + "()")
    ensures RenderResolvedFfiArg(String(true), slot)
         == Success(Arg(slot) + "?." + StringToNativeInt8 + "()")
    ensures RenderResolvedFfiArg(Int32(n), slot) == Success(Arg(slot))
    ensures RenderResolvedFfiArg(Int64(n), slot) == Success(Arg(slot))
    ensures RenderResolvedFfiArg(Custom(n, cat, name), slot) == Success(Arg(slot))
    ensures RenderResolvedFfiArg(Vec(n, inner), slot) == Success(Arg(slot))
  {
  }

  /** The argument is passed through untouched exactly for ints, customs and lists. */
  lemma FfiArgPassThroughExactly(t: DartType, slot: nat)
    ensures RenderResolvedFfiArg(t, slot) == Success(Arg(slot))
        <==> t.Int32? || t.Int64? || t.Custom? || t.Vec?
  {
    var r := RenderResolvedFfiArg(t, slot);
    if t.Bool? || t.String? {
      assert |r.value| > |Arg(slot)|;
    }
  }

  /** Only `Bool` and `String` arguments are marshalled differently when nullable;
      for every other shape nullability does not reach the expression. */
  lemma FfiArgNullabilityMattersExactly(t: DartType, slot: nat)
    requires !t.Unit?
    ensures RenderResolvedFfiArg(WithNullable(t, true), slot)
         == RenderResolvedFfiArg(WithNullable(t, false), slot)
        <==> !(t.Bool? || t.String?)
  {
    var a, b := RenderResolvedFfiArg(WithNullable(t, true), slot), RenderResolvedFfiArg(WithNullable(t, false), slot);
    if t.Bool? || t.String? {
      assert |a.value| > |b.value|;
    }
  }

  /** Different slots read different arguments. */
  lemma {:induction false} ArgNamesDistinct(i: nat, j: nat)
    ensures Arg(i) == Arg(j) ==> i == j
  {
    if Arg(i) == Arg(j) {
      assert Decimal(i) == Arg(i)[3..] == Arg(j)[3..] == Decimal(j);
      DecimalInjective(i, j);
    }
  }

  /** Return expressions for the scalars: the snippet, with `?` when nullable. */
  lemma ToDartScalars(snip: string, n: bool)
    ensures RenderToDartForSnippet(Int32(n), snip) == Success(snip + NullSuffix(n))
    ensures RenderToDartForSnippet(Int64(n), snip) == Success(snip + NullSuffix(n))
    ensures RenderToDartForSnippet(Bool(n), snip) == Success(snip + NullSuffix(n))
    ensures RenderToDartForSnippet(String(n), snip) == Success(snip + NullSuffix(n))
    ensures !n ==> RenderToDartForSnippet(Int32(n), snip) == Success(snip)
  {
    assert snip + "" == snip;
  }

  /** Return expressions for customs and lists. */
  lemma ToDartByShape(snip: string, name: string, inner: DartType)
    ensures RenderToDartForSnippet(Custom(false, Enum, name), snip)
         == Success(name + ".values[" + snip + "]")
    ensures RenderToDartForSnippet(Custom(true, Enum, name), snip)
         == Success("() { final x = " + snip + "; return x != null ? " + name + ".values[x] : null; }()")
    ensures RenderToDartForSnippet(Custom(false, Struct, name), snip) == Success(snip + ".toDart()")
    ensures RenderToDartForSnippet(Custom(true, Struct, name), snip) == Success(snip + "?.toDart()")
    ensures RenderToDartForSnippet(Custom(false, Prim, name), snip) == Success(snip)
    ensures RenderToDartForSnippet(Custom(true, Prim, name), snip) == Success(snip + "?")
    ensures RenderToDartForSnippet(Vec(false, inner), snip) == Success(snip + ".toDart()")
    ensures RenderToDartForSnippet(Vec(true, inner), snip) == Success(snip + "?.toDart()")
  {
    assert snip + "." + ToDart + "()" == snip + ".toDart()";
    assert snip + "?." + ToDart + "()" == snip + "?.toDart()";
  }

  /** How nullability changes a return expression: scalars and primitive-like
      customs gain a trailing `?`, struct and list conversions become
      null-aware calls, and a nullable enum wraps the non-nullable index lookup
      (on the closure's local `x`) in a null guard. */
  lemma ToDartNullableForm(t: DartType, snip: string)
    requires !t.Unit?
    ensures var a, b := RenderToDartForSnippet(WithNullable(t, false), snip).value,
                        RenderToDartForSnippet(WithNullable(t, true), snip).value;
      if t.Custom? && t.cat == Enum then
        b == "() { final x = " + snip + "; return x != null ? "
             + RenderToDartForSnippet(WithNullable(t, false), "x").value + " : null; }()"
      else if t.Vec? || (t.Custom? && t.cat == Struct) then
        a == snip + "." + ToDart + "()" && b == snip + "?." + ToDart + "()"
      else
        a == snip && b == snip + "?"
  {
    assert snip + "" == snip;
  }

  /** A list is converted once, at the outer level: the element type never
      reaches the return expression. */
  lemma ToDartVecIgnoresInner(n: bool, inner1: DartType, inner2: DartType, snip: string)
    ensures RenderToDartForSnippet(Vec(n, inner1), snip) == RenderToDartForSnippet(Vec(n, inner2), snip)
  {
  }

  /** Every return expression reads the raw snippet. */
  lemma ToDartEmbedsSnippet(t: DartType, snip: string)
    requires !t.Unit?
    ensures IsInfix(snip, RenderToDartForSnippet(t, snip).value)
  {
    var r := RenderToDartForSnippet(t, snip).value;
    if t.Custom? && t.cat == Enum {
      if t.nullable {
        InfixOfConcat("() { final x = ", snip, "; return x != null ? " + t.name + ".values[x] : null; }()");
        assert r == "() { final x = " + snip + ("; return x != null ? " + t.name + ".values[x] : null; }()");
      } else {
        InfixOfConcat(t.name + ".values[", snip, "]");
      }
    } else {
      InfixOfConcat("", snip, r[|snip|..]);
      assert r == "" + snip + r[|snip|..];
    }
  }
}

=== FILE: rid_common.dfy ===
/** The two names the renderers take from the `rid_common` crate. That crate is
    not part of this model. The proofs use only one fact about their values:
    `StringToNativeInt8` differs from `"toDart"`, so the string conversion and
    the `toDart()` conversion are different methods. */
module RidCommon {

  /** The prefix under which generated Dart code imports `dart:ffi` (`DART_FFI`). */
  const DartFfi: string := "dart_ffi"

  /** The Dart extension method turning a `String` into a native `Pointer<Int8>`
      (`STRING_TO_NATIVE_INT8`). */
  const StringToNativeInt8: string := "toNativeInt8"
}

=== FILE: strings.dfy ===
/** Small facts about text used by the renderers: decimal numerals,
    identifiers and the "occurs inside" relation on strings. */
module Strings {

  predicate IsDigit(c: char) {
    '0' <= c <= '9'
  }

  function DigitChar(d: nat): (c: char)
    requires d < 10
    ensures IsDigit(c)
  {
    (('0' as int) + d) as char
  }

  /** The decimal numeral of `n`, as Rust's `format!("{}", n)` prints an unsigned integer. */
  function Decimal(n: nat): (r: string)
    ensures |r| > 0
    ensures forall i :: 0 <= i < |r| ==> IsDigit(r[i])
    ensures n >= 10 ==> |r| >= 2
  {
    if n < 10 then [DigitChar(n)] else Decimal(n / 10) + [DigitChar(n % 10)]
  }

  /** Different numbers have different numerals. */
  lemma {:induction false} DecimalInjective(a: nat, b: nat)
    ensures Decimal(a) == Decimal(b) ==> a == b
    decreases a
  {
    if Decimal(a) == Decimal(b) {
      if a < 10 && b < 10 {
        assert Decimal(a)[0] == DigitChar(a);
      } else if a >= 10 && b >= 10 {
        var da, db := Decimal(a), Decimal(b);
        assert da[|da| - 1] == DigitChar(a % 10);
        assert db[|db| - 1] == DigitChar(b % 10);
        assert da[..|da| - 1] == Decimal(a / 10);
        assert db[..|db| - 1] == Decimal(b / 10);
        DecimalInjective(a / 10, b / 10);
      }
    }
  }

  /** Characters a Dart identifier may contain. */
  predicate IsIdentChar(c: char) {
    'a' <= c <= 'z' || 'A' <= c <= 'Z' || IsDigit(c) || c == '_' || c == '$'
  }

  /** A Dart identifier: non-empty, ASCII identifier characters only, not starting
      with a digit. Dart's reserved words (`class`, `if`, ...) are not excluded. */
  predicate IsIdent(s: string) {
    |s| > 0 && !IsDigit(s[0]) && forall i :: 0 <= i < |s| ==> IsIdentChar(s[i])
  }

  /** `a` occurs as a contiguous part of `b`. */
  predicate IsInfix(a: string, b: string)
    decreases |b|
  {
    a <= b || (|b| > 0 && IsInfix(a, b[1..]))
  }

  lemma {:induction false} InfixOfConcat(pre: string, a: string, post: string)
    ensures IsInfix(a, pre + a + post)
    decreases |pre|
  {
    if pre == [] {
      assert pre + a + post == a + post;
    } else {
      assert (pre + a + post)[1..] == pre[1..] + a + post;
      InfixOfConcat(pre[1..], a, post);
    }
  }
}

=== FILE: todo_app.dfy ===
/** `Model::update`, `Model::update_todo` and `Model::filtered_todos` of the
    todo example, as pure functions of the model. */
module TodoApp {
  import opened Wrappers
  import opened TodoModel
  import opened TodoOrder

  // ---------------------------------------------------------------------------
  // Invariant
  // ---------------------------------------------------------------------------

  predicate IdsDistinct(s: seq<Todo>) {
    forall i, j :: 0 <= i < |s| && 0 <= j < |s| && i != j ==> s[i].id != s[j].id
  }

  /** Todo ids are distinct and none exceeds the last id handed out. */
  predicate Valid(m: Model) {
    && IdsDistinct(m.todos)
    && forall i :: 0 <= i < |m.todos| ==> m.todos[i].id <= m.lastAddedId
  }

  /** Removing the todo at `p` keeps the others' ids distinct and different from its id. */
  lemma RemoveAtKeepsIdsDistinct(s: seq<Todo>, p: nat)
    requires IdsDistinct(s) && p < |s|
    ensures IdsDistinct(RemoveAt(s, p))
    ensures forall k :: 0 <= k < |RemoveAt(s, p)| ==> RemoveAt(s, p)[k].id != s[p].id
  {
    var s' := RemoveAt(s, p);
    forall k | 0 <= k < |s'|
      ensures s'[k] == s[if k < p then k else k + 1]
    {
    }
  }

  function RemoveAt(s: seq<Todo>, p: nat): (r: seq<Todo>)
    requires p < |s|
    ensures multiset(r) == multiset(s) - multiset{s[p]}
  {
    assert s == s[..p] + [s[p]] + s[p + 1..];
    s[..p] + s[p + 1..]
  }

  lemma ConsKeepsIdsDistinct(r: seq<Todo>)
    requires r != [] && IdsDistinct(r[1..])
    requires forall k :: 0 <= k < |r[1..]| ==> r[1..][k].id != r[0].id
    ensures IdsDistinct(r)
  {
    forall k | 0 < k < |r|
      ensures r[k] == r[1..][k - 1]
    {
    }
  }

  lemma IndexOf(s: seq<Todo>, x: Todo) returns (p: nat)
    requires x in multiset(s)
    ensures p < |s| && s[p] == x
  {
    p :| 0 <= p < |s| && s[p] == x;
  }

  /** A sub-multiset of todos avoiding an id avoids it too. */
  lemma SubMultisetAvoidsId(r: seq<Todo>, s: seq<Todo>, id: int)
    requires multiset(r) <= multiset(s)
    requires forall k :: 0 <= k < |s| ==> s[k].id != id
    ensures forall k :: 0 <= k < |r| ==> r[k].id != id
  {
    forall k | 0 <= k < |r|
      ensures r[k].id != id
    {
      assert r[k] in multiset(s);
    }
  }

  /** Dropping and reordering todos keeps their ids distinct. */
  lemma {:induction false} DistinctIdsOfSubMultiset(r: seq<Todo>, s: seq<Todo>)
    requires multiset(r) <= multiset(s)
    requires IdsDistinct(s)
    ensures IdsDistinct(r)
    decreases |r|
  {
    if r != [] {
      var x := r[0];
      var p := IndexOf(s, x);
      var s' := RemoveAt(s, p);
      MultisetOfTail(r);
      RemoveAtKeepsIdsDistinct(s, p);
      DistinctIdsOfSubMultiset(r[1..], s');
      SubMultisetAvoidsId(r[1..], s', x.id);
      ConsKeepsIdsDistinct(r);
    }
  }

  // ---------------------------------------------------------------------------
  // Helpers of `update`
  // ---------------------------------------------------------------------------

  predicate Matches(t: Todo, f: Filter) {
    match f
    case Completed => t.completed
    case Pending => !t.completed
    case All => true
  }

  /** The todos `f` selects, in their original order (`iter().filter()`, `retain`). */
  function Select(s: seq<Todo>, f: Filter): (r: seq<Todo>)
    ensures forall i :: 0 <= i < |r| ==> Matches(r[i], f)
    ensures |r| <= |s|
    decreases |s|
  {
    if s == [] then []
    else (if Matches(s[0], f) then [s[0]] else []) + Select(s[1..], f)
  }

  /** Selection only drops todos. */
  lemma {:induction false} SelectSubMultiset(s: seq<Todo>, f: Filter)
    ensures multiset(Select(s, f)) <= multiset(s)
    decreases |s|
  {
    if s != [] {
      SelectSubMultiset(s[1..], f);
      MultisetOfTail(s);
    }
  }

  /** Selection drops exactly the todos the filter rejects. */
  lemma {:induction false} SelectKeepsExactlyMatching(s: seq<Todo>, f: Filter, t: Todo)
    ensures t in Select(s, f) <==> t in s && Matches(t, f)
    decreases |s|
  {
    if s != [] {
      SelectKeepsExactlyMatching(s[1..], f, t);
      assert t in s <==> t == s[0] || t in s[1..];
    }
  }

  lemma SelectCons(x: Todo, s: seq<Todo>, f: Filter)
    ensures Select([x] + s, f) == (if Matches(x, f) then [x] else []) + Select(s, f)
  {
    assert ([x] + s)[0] == x && ([x] + s)[1..] == s;
  }

  lemma SelectOfAppendHead(a: seq<Todo>, b: seq<Todo>, f: Filter)
    requires a != []
    ensures var head := if Matches(a[0], f) then [a[0]] else [];
      Select(a + b, f) == head + Select(a[1..] + b, f) && Select(a, f) == head + Select(a[1..], f)
  {
    assert (a + b)[0] == a[0] && (a + b)[1..] == a[1..] + b;
  }

  /** Selection keeps relative order: it distributes over concatenation. */
  lemma {:induction false} SelectAppend(a: seq<Todo>, b: seq<Todo>, f: Filter)
    ensures Select(a + b, f) == Select(a, f) + Select(b, f)
    decreases |a|
  {
    if a == [] {
      assert a + b == b;
    } else {
      SelectOfAppendHead(a, b, f);
      SelectAppend(a[1..], b, f);
    }
  }

  /** A filter every todo passes selects the whole sequence. */
  lemma {:induction false} SelectAllMatching(s: seq<Todo>, f: Filter)
    requires forall i :: 0 <= i < |s| ==> Matches(s[i], f)
    ensures Select(s, f) == s
    decreases |s|
  {
    if s != [] {
      SelectAllMatching(s[1..], f);
    }
  }

  /** A filter no todo passes selects nothing. */
  lemma {:induction false} SelectNoneMatching(s: seq<Todo>, f: Filter)
    requires forall i :: 0 <= i < |s| ==> !Matches(s[i], f)
    ensures Select(s, f) == []
    decreases |s|
  {
    if s != [] {
      SelectNoneMatching(s[1..], f);
    }
  }

  /** The position of the first todo with `id` (`iter().find` / `enumerate().find`). */
  function FindTodo(s: seq<Todo>, id: U32): (r: Option<nat>)
    ensures r.Some? ==> r.value < |s| && s[r.value].id == id
    ensures r.Some? ==> forall j :: 0 <= j < r.value ==> s[j].id != id
    ensures r.None? <==> forall j :: 0 <= j < |s| ==> s[j].id != id
    decreases |s|
  {
    if s == [] then None
    else if s[0].id == id then Some(0)
    else
      match FindTodo(s[1..], id)
      case None => None
      case Some(k) => Some(k + 1)
  }

  /** `Vec::swap_remove`: the last element takes the place of the removed one. */
  function SwapRemove(s: seq<Todo>, i: nat): (r: seq<Todo>)
    requires i < |s|
    ensures |r| == |s| - 1
    ensures i < |r| ==> r[i] == s[|s| - 1]
    ensures forall j :: 0 <= j < |r| && j != i ==> r[j] == s[j]
    ensures multiset(r) == multiset(s) - multiset{s[i]}
  {
    var last := |s| - 1;
    SwapRemoveCounts(s, i);
    s[i := s[last]][..last]
  }

  lemma SwapRemoveCounts(s: seq<Todo>, i: nat)
    requires i < |s|
    ensures multiset(s[i := s[|s| - 1]][..|s| - 1]) == multiset(s) - multiset{s[i]}
  {
    var last := |s| - 1;
    var swapped := s[i := s[last]];
    var m := multiset(s) - multiset{s[i]};
    assert multiset(swapped) == m + multiset{s[last]};
    assert swapped == swapped[..last] + [s[last]];
    assert multiset(swapped[..last]) == multiset(swapped) - multiset{s[last]};
    assert (m + multiset{s[last]}) - multiset{s[last]} == m;
  }

  /** The closures `update_todo` is called with. */
  datatype Completion = MarkCompleted | MarkPending | Flip

  function Apply(op: Completion, completed: bool): bool {
    match op
    case MarkCompleted => true
    case MarkPending => false
    case Flip => !completed
  }

  /** `Model::update_todo`: apply `op` to the completion flag of the first todo
      with `id`; a missing id leaves the todos as they are. */
  function UpdateTodo(s: seq<Todo>, id: U32, op: Completion): (r: seq<Todo>)
    ensures |r| == |s|
    ensures forall k :: 0 <= k < |r| ==> r[k].id == s[k].id && r[k].title == s[k].title
    ensures FindTodo(s, id).None? ==> r == s
    ensures FindTodo(s, id).Some? ==>
      var i := FindTodo(s, id).value;
      && r[i].completed == Apply(op, s[i].completed)
      && forall k :: 0 <= k < |r| && k != i ==> r[k] == s[k]
  {
    match FindTodo(s, id)
    case None => s
    case Some(i) => s[i := s[i].(completed := Apply(op, s[i].completed))]
  }

  /** `iter_mut().for_each(|x| x.completed = b)`. */
  function SetAllCompleted(s: seq<Todo>, b: bool): (r: seq<Todo>)
    ensures |r| == |s|
    ensures forall k :: 0 <= k < |r| ==> r[k] == s[k].(completed := b)
  {
    seq(|s|, k requires 0 <= k < |s| => s[k].(completed := b))
  }

  // ---------------------------------------------------------------------------
  // update and filtered_todos
  // ---------------------------------------------------------------------------

  /** `AddTodo` needs a next id; `last_added_id += 1` overflows a `u32` otherwise. */
  predicate CanApply(m: Model, msg: Msg) {
    msg.AddTodo? ==> m.lastAddedId < U32Max
  }

  /** `Model::update`. Only `AddTodo` changes `last_added_id`; only `SetFilter`
      changes the filter. */
  function Update(m: Model, msg: Msg): (r: Model)
    requires CanApply(m, msg)
    ensures msg.AddTodo? <==> r.lastAddedId != m.lastAddedId
    ensures msg.SetFilter? ==> r == m.(filter := msg.filter)
    ensures !msg.SetFilter? ==> r.filter == m.filter
  {
    match msg
    case AddTodo(title) =>
      var id := m.lastAddedId + 1;
      m.(lastAddedId := id, todos := m.todos + [Todo(id, title, false)])
    case RemoveTodo(id) =>
      (match FindTodo(m.todos, id)
       case Some(i) => m.(todos := SwapRemove(m.todos, i))
       case None => m)
    case RemoveCompleted => m.(todos := Select(m.todos, Pending))
    case CompleteTodo(id) => m.(todos := UpdateTodo(m.todos, id, MarkCompleted))
    case RestartTodo(id) => m.(todos := UpdateTodo(m.todos, id, MarkPending))
    case ToggleTodo(id) => m.(todos := UpdateTodo(m.todos, id, Flip))
    case CompleteAll => m.(todos := SetAllCompleted(m.todos, true))
    case RestartAll => m.(todos := SetAllCompleted(m.todos, false))
    case SetFilter(filter) => m.(filter := filter)
  }

  /** `Model::filtered_todos`: the todos the current filter selects, sorted. */
  function FilteredTodos(m: Model): (r: seq<Todo>)
    ensures forall t :: t in r <==> t in m.todos && Matches(t, m.filter)
    ensures multiset(r) == multiset(Select(m.todos, m.filter))
    ensures forall i, j :: 0 <= i < j < |r| ==> r[i].id <= r[j].id
  {
    var r := Sort(Select(m.todos, m.filter));
    SortedIdsNondecreasing(r);
    SelectedAreShown(m, r);
    r
  }

  lemma SelectedAreShown(m: Model, r: seq<Todo>)
    requires multiset(r) == multiset(Select(m.todos, m.filter))
    ensures forall t :: t in r <==> t in m.todos && Matches(t, m.filter)
  {
    forall t
      ensures t in r <==> t in m.todos && Matches(t, m.filter)
    {
      assert t in r <==> t in multiset(r);
      SelectKeepsExactlyMatching(m.todos, m.filter, t);
    }
  }

  lemma SortedIdsNondecreasing(s: seq<Todo>)
    requires Sorted(s)
    ensures forall i, j :: 0 <= i < j < |s| ==> s[i].id <= s[j].id
  {
  }

  // ---------------------------------------------------------------------------
  // Properties
  // ---------------------------------------------------------------------------

  /** The initial model is valid and shows nothing. */
  lemma InitialModelIsEmpty()
    ensures Valid(InitialModel())
    ensures InitialModel().lastAddedId == 0 && InitialModel().filter == All
    ensures InitialModel().todos == []
    ensures FilteredTodos(InitialModel()) == []
  {
  }

  /** A valid model stays valid when its todos are replaced by a sub-multiset. */
  lemma SubMultisetKeepsValid(m: Model, todos: seq<Todo>)
    requires Valid(m) && multiset(todos) <= multiset(m.todos)
    ensures Valid(m.(todos := todos))
  {
    DistinctIdsOfSubMultiset(todos, m.todos);
    forall i | 0 <= i < |todos|
      ensures todos[i].id <= m.lastAddedId
    {
      assert todos[i] in multiset(m.todos);
    }
  }

  lemma AddTodoKeepsValid(m: Model, title: string)
    requires Valid(m) && CanApply(m, AddTodo(title))
    ensures Valid(Update(m, AddTodo(title)))
  {
    var r := Update(m, AddTodo(title));
    forall i, j | 0 <= i < |r.todos| && 0 <= j < |r.todos| && i != j
      ensures r.todos[i].id != r.todos[j].id
    {
      if i < |m.todos| && j < |m.todos| {
        assert r.todos[i] == m.todos[i] && r.todos[j] == m.todos[j];
      }
    }
  }

  /** `update` keeps ids distinct and bounded by `last_added_id`. */
  lemma UpdatePreservesValid(m: Model, msg: Msg)
    requires Valid(m) && CanApply(m, msg)
    ensures Valid(Update(m, msg))
  {
    match msg
    case AddTodo(title) => AddTodoKeepsValid(m, title);
    case RemoveTodo(id) =>
      if FindTodo(m.todos, id).Some? {
        SubMultisetKeepsValid(m, Update(m, msg).todos);
      }
    case RemoveCompleted =>
      SelectSubMultiset(m.todos, Pending);
      SubMultisetKeepsValid(m, Update(m, msg).todos);
    case SetFilter(_) =>
    case _ => SameIdsKeepValid(m, Update(m, msg).todos);
  }

  /** A valid model stays valid when only completion flags change. */
  lemma SameIdsKeepValid(m: Model, todos: seq<Todo>)
    requires Valid(m) && |todos| == |m.todos|
    requires forall k :: 0 <= k < |todos| ==> todos[k].id == m.todos[k].id
    ensures Valid(m.(todos := todos))
  {
  }

  /** `AddTodo` bumps `last_added_id` and appends one pending todo carrying the
      new id, which no earlier todo has. */
  lemma AddTodoAppendsFreshTodo(m: Model, title: string)
    requires Valid(m) && CanApply(m, AddTodo(title))
    ensures var r := Update(m, AddTodo(title));
      && r.lastAddedId == m.lastAddedId + 1
      && r.todos == m.todos + [Todo(r.lastAddedId, title, false)]
      && r.filter == m.filter
      && FindTodo(r.todos, r.lastAddedId) == Some(|m.todos|)
  {
    var r := Update(m, AddTodo(title));
    var n := |m.todos|;
    assert forall j :: 0 <= j < n ==> r.todos[j] == m.todos[j];
    assert r.todos[n].id == r.lastAddedId;
    var found := FindTodo(r.todos, r.lastAddedId);
    assert found.Some?;
    assert !(found.value < n);
  }

  /** `RemoveTodo` swap-removes the first todo with the id; on a valid model no
      todo with that id is left. A missing id changes nothing. */
  lemma RemoveTodoEffect(m: Model, id: U32)
    ensures var r := Update(m, RemoveTodo(id));
      match FindTodo(m.todos, id)
      case None => r == m
      case Some(i) =>
        && |r.todos| == |m.todos| - 1
        && (i < |r.todos| ==> r.todos[i] == m.todos[|m.todos| - 1])
        && multiset(r.todos) == multiset(m.todos) - multiset{m.todos[i]}
        && (Valid(m) ==> FindTodo(r.todos, id).None?)
  {
    var r := Update(m, RemoveTodo(id));
    if FindTodo(m.todos, id).Some? && Valid(m) {
      var i := FindTodo(m.todos, id).value;
      forall j | 0 <= j < |r.todos|
        ensures r.todos[j].id != id
      {
        if j == i {
          assert r.todos[j] == m.todos[|m.todos| - 1];
        } else {
          assert r.todos[j] == m.todos[j];
        }
      }
    }
  }

  /** `RemoveCompleted` keeps exactly the pending todos, in order. */
  lemma RemoveCompletedKeepsPending(m: Model)
    ensures var r := Update(m, RemoveCompleted);
      && (forall t :: t in r.todos <==> t in m.todos && !t.completed)
      && r.todos == Select(m.todos, Pending)
      && r.lastAddedId == m.lastAddedId && r.filter == m.filter
  {
    var r := Update(m, RemoveCompleted);
    forall t
      ensures t in r.todos <==> t in m.todos && !t.completed
    {
      SelectKeepsExactlyMatching(m.todos, Pending, t);
    }
  }

  /** Toggling the same todo twice restores the model. */
  lemma ToggleTwiceIsIdentity(m: Model, id: U32)
    ensures Update(Update(m, ToggleTodo(id)), ToggleTodo(id)) == m
  {
    var r := Update(m, ToggleTodo(id));
    UpdateTodoKeepsFind(m.todos, id, Flip);
    if FindTodo(m.todos, id).Some? {
      assert Update(r, ToggleTodo(id)).todos == m.todos;
    }
  }

  lemma CompleteAndRestartIdempotent(m: Model, id: U32)
    ensures var r := Update(m, CompleteTodo(id));
      Update(r, CompleteTodo(id)) == r
    ensures var r := Update(m, RestartTodo(id));
      Update(r, RestartTodo(id)) == r
  {
    UpdateTodoTwice(m.todos, id, MarkCompleted);
    UpdateTodoTwice(m.todos, id, MarkPending);
  }

  /** Applying a constant completion twice is applying it once. */
  lemma UpdateTodoTwice(s: seq<Todo>, id: U32, op: Completion)
    requires op != Flip
    ensures UpdateTodo(UpdateTodo(s, id, op), id, op) == UpdateTodo(s, id, op)
  {
    var r := UpdateTodo(s, id, op);
    UpdateTodoKeepsFind(s, id, op);
  }

  /** Ids do not move, so the same todo is found again. */
  lemma UpdateTodoKeepsFind(s: seq<Todo>, id: U32, op: Completion)
    ensures FindTodo(UpdateTodo(s, id, op), id) == FindTodo(s, id)
  {
    var r := UpdateTodo(s, id, op);
    var a, b := FindTodo(r, id), FindTodo(s, id);
    if a.Some? && b.Some? {
      assert !(a.value < b.value) && !(b.value < a.value);
    }
  }

  /** After `CompleteAll` the `Pending` view is empty and the `Completed` view
      shows every todo; `RestartAll` is the mirror image. */
  lemma CompleteAllAndRestartAllViews(m: Model)
    ensures var r := Update(m, CompleteAll);
      FilteredTodos(r.(filter := Pending)) == []
      && multiset(FilteredTodos(r.(filter := Completed))) == multiset(r.todos)
    ensures var r := Update(m, RestartAll);
      FilteredTodos(r.(filter := Completed)) == []
      && multiset(FilteredTodos(r.(filter := Pending))) == multiset(r.todos)
  {
    var c := Update(m, CompleteAll).todos;
    var p := Update(m, RestartAll).todos;
    SelectAllMatching(c, Completed);
    SelectNoneMatching(c, Pending);
    SelectAllMatching(p, Pending);
    SelectNoneMatching(p, Completed);
  }

  /** On a valid model the shown todos are strictly ordered by id, and they are
      the one sorted arrangement of the selected todos. */
  lemma FilteredTodosStrictlyIncreasing(m: Model)
    requires Valid(m)
    ensures var r := FilteredTodos(m);
      forall i, j :: 0 <= i < j < |r| ==> r[i].id < r[j].id
    ensures forall s :: Sorted(s) && multiset(s) == multiset(Select(m.todos, m.filter))
                        ==> s == FilteredTodos(m)
  {
    var r := FilteredTodos(m);
    SelectSubMultiset(m.todos, m.filter);
    DistinctIdsOfSubMultiset(r, m.todos);
    forall s | Sorted(s) && multiset(s) == multiset(Select(m.todos, m.filter))
      ensures s == r
    {
      SortedUnique(s, r);
    }
  }
}

=== FILE: todo_model.dfy ===
/** The data of the todo example: `Todo`, `Filter`, `Msg` and `Model`. */
module TodoModel {

  const U32Max: nat := 0xFFFF_FFFF

  /** Rust's `u32`. */
  type U32 = x: nat | x <= U32Max

  datatype Todo = Todo(id: U32, title: string, completed: bool)

  /** `#[repr(u8)] enum Filter`; the discriminant is the declaration position. */
  datatype Filter = Completed | Pending | All

  datatype Msg =
    | AddTodo(title: string)
    | RemoveTodo(id: U32)
    | RemoveCompleted
    | CompleteTodo(id: U32)
    | RestartTodo(id: U32)
    | ToggleTodo(id: U32)
    | CompleteAll
    | RestartAll
    | SetFilter(filter: Filter)

  datatype Model = Model(lastAddedId: U32, todos: seq<Todo>, filter: Filter)

  /** The model `init_model_ptr` hands out. */
  function InitialModel(): Model {
    Model(0, [], All)
  }

  /** The raw `u8` a `Filter` crosses the boundary as. */
  function FilterIndex(f: Filter): nat {
    match f
    case Completed => 0
    case Pending => 1
    case All => 2
  }

  /** Dart's generated `Filter.values`, in declaration order. */
  const FilterValues: seq<Filter> := [Completed, Pending, All]

  /** Rust's discriminant and Dart's `values[index]` lookup agree on every filter,
      and every index of `values` is some filter's discriminant. */
  lemma FilterIndexRoundTrip(f: Filter, i: nat)
    ensures FilterIndex(f) < |FilterValues| && FilterValues[FilterIndex(f)] == f
    ensures i < |FilterValues| ==> FilterIndex(FilterValues[i]) == i
  {
  }
}

=== FILE: todo_order.dfy ===
/** The order `filtered_todos` sorts by. `vec.sort()` compares with
    `PartialOrd::lt`, and `Todo` derives `PartialOrd`: id first, then title,
    then completion (the hand-written `Ord`, comparing ids only, agrees with
    it whenever ids differ). Sorting is modelled as an insertion sort; since
    the order is total and antisymmetric there is only one sorted
    permutation, so any sorting algorithm gives the same result. */
module TodoOrder {
  import opened TodoModel

  /** Lexicographic order on strings (byte order of UTF-8 equals code point order). */
  predicate StrLe(a: string, b: string)
    decreases |a|
  {
    |a| == 0 || (|b| > 0 && (a[0] < b[0] || (a[0] == b[0] && StrLe(a[1..], b[1..]))))
  }

  lemma {:induction false} StrLeTotal(a: string, b: string)
    ensures StrLe(a, b) || StrLe(b, a)
    decreases |a|
  {
    if |a| > 0 && |b| > 0 && a[0] == b[0] {
      StrLeTotal(a[1..], b[1..]);
    }
  }

  lemma {:induction false} StrLeAntisymmetric(a: string, b: string)
    requires StrLe(a, b) && StrLe(b, a)
    ensures a == b
    decreases |a|
  {
    if |a| > 0 {
      StrLeAntisymmetric(a[1..], b[1..]);
      assert a == [a[0]] + a[1..] && b == [b[0]] + b[1..];
    }
  }

  lemma {:induction false} StrLeTransitive(a: string, b: string, c: string)
    requires StrLe(a, b) && StrLe(b, c)
    ensures StrLe(a, c)
    decreases |a|
  {
    if |a| > 0 && a[0] == b[0] && b[0] == c[0] {
      StrLeTransitive(a[1..], b[1..], c[1..]);
    }
  }

  /** `a <= b` under the derived `PartialOrd` of `Todo`. */
  predicate TodoLe(a: Todo, b: Todo) {
    if a.id != b.id then a.id < b.id
    else if a.title != b.title then StrLe(a.title, b.title)
    else !a.completed || b.completed
  }

  lemma TodoLeTotal(a: Todo, b: Todo)
    ensures TodoLe(a, b) || TodoLe(b, a)
  {
    StrLeTotal(a.title, b.title);
  }

  lemma TodoLeAntisymmetric(a: Todo, b: Todo)
    requires TodoLe(a, b) && TodoLe(b, a)
    ensures a == b
  {
    if a.id == b.id && a.title != b.title {
      StrLeAntisymmetric(a.title, b.title);
    }
  }

  lemma TodoLeTransitive(a: Todo, b: Todo, c: Todo)
    requires TodoLe(a, b) && TodoLe(b, c)
    ensures TodoLe(a, c)
  {
    if a.id == b.id && b.id == c.id {
      if a.title != b.title && b.title != c.title {
        StrLeTransitive(a.title, b.title, c.title);
        if a.title == c.title {
          StrLeAntisymmetric(a.title, b.title);
        }
      }
    }
  }

  predicate Sorted(s: seq<Todo>) {
    forall i, j :: 0 <= i < j < |s| ==> TodoLe(s[i], s[j])
  }

  /** `x` is no greater than anything in `s`. */
  lemma LowerBound(x: Todo, s: seq<Todo>, bound: seq<Todo>, y: Todo)
    requires forall k :: 0 <= k < |bound| ==> TodoLe(x, bound[k])
    requires TodoLe(x, y)
    requires multiset(s) == multiset(bound) + multiset{y}
    ensures forall k :: 0 <= k < |s| ==> TodoLe(x, s[k])
  {
    forall k | 0 <= k < |s|
      ensures TodoLe(x, s[k])
    {
      assert s[k] in multiset(s);
      if s[k] != y {
        assert s[k] in multiset(bound);
        var p :| 0 <= p < |bound| && bound[p] == s[k];
      }
    }
  }

  /** Inserts `x` before the first element it is no greater than. */
  function Insert(x: Todo, s: seq<Todo>): (r: seq<Todo>)
    requires Sorted(s)
    ensures Sorted(r)
    ensures multiset(r) == multiset(s) + multiset{x}
    decreases |s|
  {
    if s == [] then [x]
    else if TodoLe(x, s[0]) then
      TodoLeChain(x, s);
      [x] + s
    else
      assert s == [s[0]] + s[1..];
      var rest := Insert(x, s[1..]);
      TodoLeTotal(x, s[0]);
      LowerBound(s[0], rest, s[1..], x);
      [s[0]] + rest
  }

  lemma TodoLeChain(x: Todo, s: seq<Todo>)
    requires Sorted(s) && |s| > 0 && TodoLe(x, s[0])
    ensures forall k :: 0 <= k < |s| ==> TodoLe(x, s[k])
  {
    forall k | 0 < k < |s|
      ensures TodoLe(x, s[k])
    {
      TodoLeTransitive(x, s[0], s[k]);
    }
  }

  /** Sorts `s` into ascending `TodoLe` order. */
  function Sort(s: seq<Todo>): (r: seq<Todo>)
    ensures Sorted(r)
    ensures multiset(r) == multiset(s)
    decreases |s|
  {
    if s == [] then []
    else
      assert s == [s[0]] + s[1..];
      Insert(s[0], Sort(s[1..]))
  }

  /** The head of a sorted sequence is no greater than any of its elements. */
  lemma SortedHeadIsLeast(a: seq<Todo>, x: Todo)
    requires Sorted(a) && x in multiset(a)
    ensures |a| > 0 && TodoLe(a[0], x)
  {
    var p :| 0 <= p < |a| && a[p] == x;
    if p == 0 {
      TodoLeTotal(x, x);
    }
  }

  lemma MultisetOfTail(a: seq<Todo>)
    requires a != []
    ensures multiset(a[1..]) == multiset(a) - multiset{a[0]}
  {
    assert a == [a[0]] + a[1..];
  }

  /** There is only one sorted arrangement of a multiset of todos. */
  lemma {:induction false} SortedUnique(a: seq<Todo>, b: seq<Todo>)
    requires Sorted(a) && Sorted(b)
    requires multiset(a) == multiset(b)
    ensures a == b
    decreases |a|
  {
    if a != [] {
      assert a[0] in multiset(b);
      SortedHeadIsLeast(b, a[0]);
      SortedHeadIsLeast(a, b[0]);
      TodoLeAntisymmetric(a[0], b[0]);
      MultisetOfTail(a);
      MultisetOfTail(b);
      SortedUnique(a[1..], b[1..]);
    }
  }
}

=== FILE: wrappers.dfy ===
/** Failure-carrying result types shared by the whole model. */
module Wrappers {

  /** An optional value: `None` or `Some(value)`. */
  datatype Option<+T> = None | Some(value: T)

  /** The outcome of an operation that can fail with an error of type `E`. */
  datatype Result<+T, +E> = Success(value: T) | Failure(error: E)
}
